=== FILE: README.md ===
# Circular byte buffer and bounded blocking deque

This project models the two leaf components of the Weberver server core in Dafny
and proves properties of the models:

- **`Buffer`** (src/buffer/buffer.cpp) is a growable circular byte buffer. Its state is a store of
  `Cap` bytes and two cursors, `readPos` and `writePos`, both below `Cap`. One cell is always
  unused, so equal cursors mean "empty". The abstraction function `CircularBuffer.Contents`
  gives the readable bytes. They are `storage[readPos..writePos]`, or, when the data wraps, the tail
  `storage[readPos..]` followed by the head `storage[..writePos]`. Each operation is a pure
  function from state to state.
- **`BlockDeque<T>`** (src/log/blockqueue.h) is a bounded deque with a one-way open-to-closed flag.
  Each public operation is modelled as its critical section under the mutex. Where the source
  would wait on a condition variable, the model returns a `PushWaits` or `PopWaits` status and
  leaves the state unchanged. A timed pop whose timer ran out returns `TimedOut`.

Files:

- `modarith.dfy`: one lemma about `%`.
- `buffer.dfy` (module `CircularBuffer`): state, queries, retrieval, append and growth.
- `buffer_io.dfy` (module `BufferIo`): the cursor bookkeeping of `ReadFd` and `WriteFd`.
- `buffer_findings.dfy` (module `BufferFindings`): the two defects below, as written.
- `buffer_scenario.dfy` (module `BufferScenario`): capacity 32, ten digits in, four out, thirty more in (forcing growth), then a full drain.
- `blockdeque.dfy` (module `BlockDeque`): the deque.

The syscalls are inputs to the model. `readv` is represented by the bytes it delivered or a
failure with its `errno`. Each `write` is represented by the count it accepted or a failure. The
model computes the buffer, the return value and the `*saveErrno` out-parameter. The source
writes `*saveErrno` only on failure, so the model passes the caller's value through otherwise.

Three facts about the code that the model keeps as they are:

- readable + writable = `Cap - 1`. The prependable count (`readPos`) is outside that sum:
  `CircularBuffer.PrependableOutsideSum` shows that adding it still gives `Cap - 1` only when
  `readPos` is 0.
- The `ReadFd` overflow area is 65535 bytes (`BufferIo.ExtraBufSize`).
- Compaction does not add writable space (Findings, row 1). `Append`, `AppendBuffer`,
  `AppendAll` and `ReadFd` are therefore modelled over the corrected growth, which grows where
  the source compacts. Appends that start from `readPos` 0 never reach compaction
  (`AppendAllFromStart`, `FreshAppendNeverAborts`), so `DrainAfterAppends` and
  `Capacity32Scenario` also hold of the code as written.

## Model

| member | source | states |
|---|---|---|
| CircularBuffer.New | src/buffer/buffer.cpp:4 | A new buffer of positive size is empty and has `size - 1` writable cells. |
| CircularBuffer.ReadableBytes | src/buffer/buffer.cpp:15-20 | The count equals the length of the abstract content and is below `Cap`. It is 0 exactly when the cursors coincide. |
| CircularBuffer.WritableBytes | src/buffer/buffer.cpp:22-29 | Readable + writable = `Cap - 1` in both cursor orderings (one reserved cell). |
| CircularBuffer.PrependableBytes | src/buffer/buffer.cpp:31-33 | The count of cells before `readPos`: it is below `Cap`, and the readable run that starts that many cells in ends exactly at `writePos`, which fixes the count as `readPos`. It lies outside the readable + writable budget (`PrependableOutsideSum`). |
| CircularBuffer.PrependableOutsideSum | src/buffer/buffer.cpp:31-33 | Prependable (`readPos`) is not part of the budget: adding it gives `Cap - 1` only when `readPos` is 0. |
| CircularBuffer.NextPos | src/buffer/buffer.cpp:264-266 | The result is a cell of storage; within one lap it is a single wrap. |
| CircularBuffer.ContentsAt | src/buffer/buffer.cpp:264-266 | The i-th readable byte is stored at `NextPos(readPos, i)`, in either segment. |
| CircularBuffer.Retrieve | src/buffer/buffer.cpp:41-49 | Needs `len <= ReadableBytes`. Drops exactly the first `len` readable bytes and leaves storage alone. If the buffer becomes empty, both cursors are 0. Otherwise `writePos` is kept and `readPos` moves `len` cells on. |
| CircularBuffer.RetrieveUntil | src/buffer/buffer.cpp:51-60 | Retrieves `(end - readPos) mod Cap` bytes, whether or not the data wraps. A non-empty remainder starts at `end`; if nothing remains, both cursors are 0. |
| CircularBuffer.RetrieveAll | src/buffer/buffer.cpp:62-64 | Empties the buffer with both cursors at 0. Same as `Retrieve` of every readable byte. |
| CircularBuffer.ContentsAreCells | src/buffer/buffer.cpp:66-81 | The two-segment readable content (tail `[readPos, Cap)` then head `[0, writePos)`) equals the run of `ReadableBytes` cells from `readPos`, wrapping at the end of storage. |
| CircularBuffer.RetrieveAllToStr | src/buffer/buffer.cpp:66-81 | Returns the readable bytes in order: the run of `ReadableBytes` cells from `readPos`, across the wrap. Afterwards the buffer is empty with both cursors at 0. |
| CircularBuffer.HasWritten | src/buffer/buffer.cpp:91-94 | Needs `len <= WritableBytes`. Readable grows by exactly `len`. The content becomes the old content followed by the `len` cells after `writePos`. Cursors stay in storage and differ when `len > 0`. |
| CircularBuffer.CopyIn | src/buffer/buffer.cpp:113-120 | The copy step moves no cursor and keeps the capacity. |
| CircularBuffer.CopyInWrites | src/buffer/buffer.cpp:113-120 | Data byte j lands `j` cells after `writePos`, split at the physical end of storage. |
| CircularBuffer.CopyInKeepsContents | src/buffer/buffer.cpp:113-120 | With at most `WritableBytes` bytes, no previously readable byte is touched. |
| CircularBuffer.Store | src/buffer/buffer.cpp:113-122 | Given enough writable room, copy-then-advance makes the content `old ++ data`. |
| CircularBuffer.Grow | src/buffer/buffer.cpp:222-239 | New size is `2 * (Cap + len)`. Content is kept, starting at cell 0 with `readPos = 0` and `writePos = readable`. At least `len` cells are writable afterwards. |
| CircularBuffer.Compact | src/buffer/buffer.cpp:240-261 | Content and capacity are kept and the cursors reset. `WritableBytes` is unchanged, so no space is gained. |
| CircularBuffer.MakeSpace | src/buffer/buffer.cpp:220-262 | Content is always kept and capacity never shrinks. The growth branch meets the request. The compaction branch leaves the writable count as it was. |
| CircularBuffer.EnsureWriteableAsWritten | src/buffer/buffer.cpp:96-101 | As written, the assertion at line 100 fails exactly when `MakeSpace_` is entered and chooses compaction. In every other case the result equals the corrected `EnsureWriteable`. |
| CircularBuffer.EnsureWriteable | src/buffer/buffer.cpp:96-101 | Corrected: afterwards `WritableBytes >= len`, with content byte-for-byte unchanged and capacity not reduced. With enough room nothing changes; otherwise the size becomes `2 * (Cap + len)` and `readPos` is 0. |
| CircularBuffer.Append | src/buffer/buffer.cpp:104-123 | Corrected (grows where the source compacts): content becomes `old ++ data` and capacity never shrinks. When the data fits there is no growth and `readPos` is kept; otherwise the size becomes `2 * (Cap + len)` and `readPos` is 0. |
| CircularBuffer.AppendBuffer | src/buffer/buffer.cpp:130-132 | Corrected `Append(const Buffer&)`: appends the source's readable content, both segments. |
| CircularBuffer.AppendAll | src/buffer/buffer.cpp:104-123 | Corrected (grows where the source compacts): any run of appends, through any number of growths, yields the concatenation of the chunks after the old content. |
| CircularBuffer.AppendAllFromStart | src/buffer/buffer.cpp:96-123 | Appends that start with `readPos` 0 keep it at 0: each one fits, or it grows and resets `readPos` to 0. Compaction is never chosen. |
| CircularBuffer.DrainAfterAppends | src/buffer/buffer.cpp:66-81 | Growth round trip, which the as-written code also meets because appends from a new buffer never compact (`AppendAllFromStart`): append chunks to a new buffer, then drain. The drain returns exactly their concatenation, in order, and leaves the buffer empty. |
| BufferIo.PeekPrefix | src/buffer/buffer.cpp:36-38 | The `n` bytes from `Peek()` are the first `n` readable bytes while the span stays in storage. |
| BufferIo.ContiguousWritable | src/buffer/buffer.cpp:139-146 | The first iovec satisfies `writePos + contiguous <= Cap` and `contiguous <= WritableBytes`. It is the whole writable count or runs to the physical end. |
| BufferIo.ReadFd | src/buffer/buffer.cpp:134-170 | Corrected (grows where the source compacts): a non-negative `readv` result of n bytes (at most `contiguous + 65535`) appends exactly those bytes in order and returns n. When they fit the first iovec, nothing grows and `readPos` is kept; only `writePos` advances. A failure returns a negative value, leaves the buffer unchanged and stores `errno`. |
| BufferIo.WriteContiguous | src/buffer/buffer.cpp:178-187 | One write; the buffer afterwards is `Retrieve` of the accepted count, so it resets both cursors if drained. The bytes sent plus the remaining content equal the old content, and the return value is the count. A failure returns -1 with the buffer unchanged. |
| BufferIo.WriteHead | src/buffer/buffer.cpp:201-212 | The second write sends a prefix of the head segment, and the buffer afterwards is `Retrieve` of that count. A failure returns the first segment's count and stores `errno`. |
| BufferIo.WriteTail | src/buffer/buffer.cpp:188-199 | The first write of the wrapped branch retrieves exactly the `n1` tail bytes it accepted (the buffer is `Retrieve(b, n1)`) and returns `n1`. When `n1` is the whole tail and `writePos > 0`, `readPos` is 0 afterwards and the head segment is what is left. |
| BufferIo.WriteAfterTail | src/buffer/buffer.cpp:188-213 | After the first write accepted `n1` tail bytes, a second write happens exactly when `n1` is the whole tail and `writePos > 0`. Exactly `n1` bytes are retrieved with one write, and `n1 + second.count` after a successful second one. The return value equals the number of bytes sent, and those bytes are the ones retrieved. A drained buffer has both cursors at 0; otherwise `writePos` is kept. |
| BufferIo.WriteWrapped | src/buffer/buffer.cpp:188-213 | The head segment is written only if the tail went out whole and `writePos > 0`. Bytes retrieved always equal the bytes sent: exactly `first.count` after one write and `first.count + second.count` after two successful writes. A drained buffer has both cursors at 0; otherwise `writePos` is kept. |
| BufferIo.WriteFd | src/buffer/buffer.cpp:172-216 | An empty buffer returns 0 and makes no call. Bytes sent followed by the remaining content equal the old content, and the count returned is the number sent. That number is exactly what the write calls accepted: `first.count` after one write, `first.count + second.count` after two successful ones. A first-write failure returns a negative value with nothing changed. A second write happens iff the data wraps, the tail was fully written and `writePos > 0`. A second-write failure returns the tail's count. After a successful write, a drained buffer has both cursors at 0 and otherwise `writePos` is kept. |
| BufferFindings.AppendAsWritten | src/buffer/buffer.cpp:108-123 | As written with assertions on, `Append` aborts exactly when compaction is chosen for a request that does not fit. Otherwise it equals the corrected `Append`. |
| BufferFindings.FreshAppendNeverAborts | src/buffer/buffer.cpp:96-123 | On a buffer with `readPos` 0 (new or just drained), the as-written `Append` never aborts and equals the corrected one. |
| BufferFindings.CompactionCounterexample | src/buffer/buffer.cpp:240-261 | Cap 32, `readPos` 10, `writePos` 20, append 25: compaction is chosen, 21 writable cells remain, and the line-100 assertion fails. |
| BufferFindings.MakeSpaceMeetsAssertIff | src/buffer/buffer.cpp:220-261 | When space is short, `MakeSpace_` meets the request iff it does not choose compaction. |
| BufferFindings.UncheckedAppendLosesBytes | src/buffer/buffer.cpp:113-122 | Without assertions, advancing `writePos` after a compaction gives fewer readable bytes than old + appended. |
| BufferFindings.ReadFdReachesCompaction | src/buffer/buffer.cpp:157-167 | `ReadFd`'s overflow `Append` reaches the failing compaction path (cap 32, `readPos` 20, `writePos` 5, 20 bytes read). |
| BufferFindings.AppendBufferAsWritten | src/buffer/buffer.cpp:130-132 | As written: `ReadableBytes()` bytes from `Peek()`. Defined only while that span stays in storage, and there it equals `AppendBuffer`. |
| BufferFindings.PeekSpanIsContents | src/buffer/buffer.cpp:130-132 | An in-bounds span from `Peek()` of `ReadableBytes()` bytes is exactly the readable content. |
| BufferFindings.PeekSpanOverrunIff | src/buffer/buffer.cpp:130-132 | The span overruns the source's storage iff the data wraps with a non-empty head segment. |
| BufferFindings.PeekSpanCounterexample | src/buffer/buffer.cpp:130-132 | Cap 8, `readPos` 6, `writePos` 2: the span ends at cell 10. |
| BufferScenario.Capacity32Scenario | src/buffer/buffer.cpp:96-123 | Cap 32 has 31 writable cells. After 10 digits: 10 readable and 21 writable. After retrieving 4: "456789". Appending 30 more grows to 124 (not compaction), and the drain returns "456789" followed by the 30 bytes. |
| BlockDeque.New | src/log/blockqueue.h:13-47 | Construction needs capacity > 0 (default 1000) and gives an open, empty deque. |
| BlockDeque.Close | src/log/blockqueue.h:53-62 | Empties the items and sets `closed` together, keeping the capacity. Closing again changes nothing. |
| BlockDeque.Clear | src/log/blockqueue.h:69-73 | Empties the items without closing. |
| BlockDeque.Front | src/log/blockqueue.h:74-78 | Needs a non-empty deque. The front is the item the next `pop` returns. |
| BlockDeque.Back | src/log/blockqueue.h:79-83 | Needs a non-empty deque. The back is the last item a full drain returns. |
| BlockDeque.PushBack | src/log/blockqueue.h:104-137 | Waits iff open and full. Drops the item iff closed, with nothing changed. Otherwise appends at the back. The invariant, the capacity and the flag are kept. |
| BlockDeque.PushFront | src/log/blockqueue.h:139-173 | As `PushBack`, but inserts at the front. |
| BlockDeque.Pop | src/log/blockqueue.h:174-188 | On a closed deque it returns no item and changes nothing. On an open empty one it waits. Otherwise it returns the front item and removes exactly it. |
| BlockDeque.TimedPop | src/log/blockqueue.h:190-206 | Behaves like `pop` whenever `pop` would not wait. Otherwise nothing changes, and it returns `TimedOut` iff the timer expired. |
| BlockDeque.PushAllBack | src/log/blockqueue.h:104-120 | Back-pushing a list with room for it appends the list in order. |
| BlockDeque.Drain | src/log/blockqueue.h:174-188 | `n` pops on an open deque return its first `n` items in order. |
| BlockDeque.PushBackThenPopIsFifo | src/log/blockqueue.h:113-120 | `push_back` then `pop` is FIFO, after whatever was already queued. |
| BlockDeque.PushFrontPopsNext | src/log/blockqueue.h:148-154 | A front-pushed item is the next one popped, and that pop restores the deque. |
| BlockDeque.BackIsLastPushed | src/log/blockqueue.h:79-83 | `back()` after `push_back(x)` is `x`. |
| BlockDeque.FullEmptyMeanWaiting | src/log/blockqueue.h:93-102 | On an open deque, `full()` iff a push would wait, and `empty()` iff a pop would wait. |
| BlockDeque.Step | src/log/blockqueue.h:53-206 | Every critical section keeps the invariant (size ≤ capacity, closed ⇒ empty) and the capacity, and never reopens. |
| BlockDeque.RunKeepsInvariant | src/log/blockqueue.h:53-206 | Over any sequence of operations: capacity is constant and size ≤ capacity. Once closed, the deque stays closed and empty, so every later push is dropped. |
| BlockDeque.CapacityTwoScenario | src/log/blockqueue.h:104-188 | Capacity 2: push 1 and 2; a push of 3 waits. A pop yields 1 and lets 3 in. Then the pops yield 2 and 3. |
| BlockDeque.ClosedDropsAndReturns | src/log/blockqueue.h:110-112 | After `Close`, both pushes are dropped with no change. Both pops return no item without waiting. |

## Findings

| source | as written | input that shows it | evidently intended | confidence | as-written member | corrected member |
|---|---|---|---|---|---|---|
| src/buffer/buffer.cpp:240-261 | `MakeSpace_` compacts when writable + prependable ≥ len + 1. In a ring, compaction leaves `WritableBytes` unchanged, so the assertion at line 100 fails. With assertions off, `Append` laps the read cursor and loses readable bytes. `ReadFd`'s overflow append reaches the same path. | Cap 32, `readPos` 10, `writePos` 20, `Append` of 25 bytes (`BufferFindings.CompactionCounterexample`) | `EnsureWriteable(len)` always leaves at least `len` writable cells, by growing when space is short | high; not executed | CircularBuffer.EnsureWriteableAsWritten | CircularBuffer.EnsureWriteable, CircularBuffer.Append, BufferIo.ReadFd |
| src/buffer/buffer.cpp:130-132 | `Append(const Buffer&)` copies `ReadableBytes()` contiguous bytes from `Peek()`. When the source's data wraps, this reads past the end of its storage. | Source with Cap 8, `readPos` 6, `writePos` 2 (`BufferFindings.PeekSpanCounterexample`) | Append the source's readable bytes, tail segment then head segment | high; not executed | BufferFindings.AppendBufferAsWritten | CircularBuffer.AppendBuffer |

## Left out

- src/log/log.cpp is not part of this model. It covers file creation and writing, wall-clock time, formatting, the singleton and the writer thread.
- The `readv` and `write` syscalls and `errno`: only their results are modelled, as inputs. `ReadFd`'s 65535-byte stack array is reduced to its size.
- Mutex, condition variables, `notify_one`/`notify_all`, `std::atomic` and timing. Waiting is an outcome (`PushWaits`, `PopWaits`, `TimedOut`), not a thread interleaving. Wakeups are not modelled. The `expired` input of `TimedPop` stands in for the clock.
- `flush()` only calls `notify_one` on the consumer condition variable. It changes no state under the lock, so there is nothing to model.
- The destructor `~BlockDeque` calls `Close`, which is modelled.
- The exception path on a failed insertion (blockqueue.h:115-118 and its three copies): this is allocation failure plus a notification, not state. Allocation failure while growing the buffer is left out too.
- Raw pointers (`Peek`, `BeginWrite`, `BeginWriteConst`, `BeginPtr_`) are replaced by integer offsets. The null-source assertions (buffer.cpp:109, 126) disappear because sources are sequences.
- `RetrieveUntil`'s marker is an offset in `[0, Cap]`; a pointer outside the store is undefined behaviour in the source and is not modelled.
- `size_t` arithmetic is unbounded here, so the wrap-around of `(buffer_.size() + len) * 2` for huge `len` is not modelled.
- `Append(const Buffer&)` with the destination as its own source (aliasing across a reallocation) is not modelled; Dafny values cannot alias.
- `size()`, `capacity()`, `empty()` and `full()` are the helper functions `Size`, `Capacity`, `Empty` and `Full`. They get no rows; `FullEmptyMeanWaiting` states what `full` and `empty` mean.

=== FILE: blockdeque.dfy ===
/**
  The bounded blocking deque `BlockDeque<T>` of src/log/blockqueue.h, as the
  sequential state machine that lives under its mutex: the items (`deq_`), the
  fixed `capacity_`, and the one-way `isClose_` flag.

  Each public operation is modelled as its critical section, evaluated once the
  thread holds the lock. Where the source would wait on a condition variable the
  model returns `PushWaits` / `PopWaits` with the state unchanged; a timed pop
  whose wait expires returns `TimedOut`. Which thread runs next, notifications and
  clocks are not modelled.
*/
module BlockDeque {

  /** The constructor's default capacity (`MaxCapacity = 1000`). */
  const DefaultCapacity: nat := 1000

  datatype Deque<T> = Deque(items: seq<T>, capacity: nat, closed: bool)

  /** The invariant every critical section preserves: a positive capacity, never
      more items than it, and a closed deque holds nothing. */
  predicate Valid<T>(q: Deque<T>) {
    q.capacity > 0 && |q.items| <= q.capacity && (q.closed ==> |q.items| == 0)
  }

  /** What a push does once it holds the lock. */
  datatype PushStatus = Inserted | Discarded | PushWaits

  /** What a pop does once it holds the lock; only `Got` makes `pop` return true. */
  datatype PopStatus<T> = Got(item: T) | NoItem | PopWaits | TimedOut

  /** `BlockDeque(MaxCapacity)`: open and empty; the source asserts a positive capacity. */
  function New<T>(capacity: nat := DefaultCapacity): (q: Deque<T>)
    requires capacity > 0
    ensures Valid(q) && |q.items| == 0 && !q.closed && q.capacity == capacity
  {
    Deque([], capacity, false)
  }

  // ---------------------------------------------------------------- queries

  function Size<T>(q: Deque<T>): nat {
    |q.items|
  }

  function Capacity<T>(q: Deque<T>): nat {
    q.capacity
  }

  predicate Empty<T>(q: Deque<T>) {
    |q.items| == 0
  }

  predicate Full<T>(q: Deque<T>) {
    |q.items| >= q.capacity
  }

  // -------------------------------------------------------------- mutators

  /** `Close`: drop every pending item and set the flag, in one critical section. */
  function Close<T>(q: Deque<T>): (r: Deque<T>)
    requires Valid(q)
    ensures Valid(r) && r.closed && Empty(r) && r.capacity == q.capacity
    ensures q.closed ==> r == q
  {
    q.(items := [], closed := true)
  }

  /** `clear`: drop every pending item without closing. */
  function Clear<T>(q: Deque<T>): (r: Deque<T>)
    requires Valid(q)
    ensures Valid(r) && Empty(r) && r.closed == q.closed && r.capacity == q.capacity
  {
    q.(items := [])
  }

  /** `push_back` (both overloads): wait while full and open; on a closed deque
      return without inserting; otherwise append at the back. */
  function PushBack<T>(q: Deque<T>, x: T): (r: (Deque<T>, PushStatus))
    requires Valid(q)
    ensures Valid(r.0) && r.0.capacity == q.capacity && r.0.closed == q.closed
    ensures r.1 == Discarded <==> q.closed
    ensures r.1 == PushWaits <==> !q.closed && Full(q)
    ensures r.1 == Inserted ==> r.0.items == q.items + [x]
    ensures r.1 != Inserted ==> r.0 == q
  {
    if |q.items| >= q.capacity && !q.closed then (q, PushWaits)
    else if q.closed then (q, Discarded)
    else (q.(items := q.items + [x]), Inserted)
  }

  /** `push_front` (both overloads): as `PushBack`, inserting at the front. */
  function PushFront<T>(q: Deque<T>, x: T): (r: (Deque<T>, PushStatus))
    requires Valid(q)
    ensures Valid(r.0) && r.0.capacity == q.capacity && r.0.closed == q.closed
    ensures r.1 == Discarded <==> q.closed
    ensures r.1 == PushWaits <==> !q.closed && Full(q)
    ensures r.1 == Inserted ==> r.0.items == [x] + q.items
    ensures r.1 != Inserted ==> r.0 == q
  {
    if |q.items| >= q.capacity && !q.closed then (q, PushWaits)
    else if q.closed then (q, Discarded)
    else (q.(items := [x] + q.items), Inserted)
  }

  /** `pop(item)`: return false once closed and empty; wait while empty or
      closed; otherwise remove and return the front item. The source's wait on a
      closed but non-empty deque cannot arise, because `Close` empties it. */
  function Pop<T>(q: Deque<T>): (r: (Deque<T>, PopStatus<T>))
    requires Valid(q)
    ensures Valid(r.0) && r.0.capacity == q.capacity && r.0.closed == q.closed
    ensures q.closed ==> r == (q, NoItem)
    ensures !q.closed && Empty(q) ==> r == (q, PopWaits)
    ensures !Empty(q) ==> r.1 == Got(q.items[0]) && r.0.items == q.items[1..]
  {
    if q.closed && |q.items| == 0 then (q, NoItem)
    else if |q.items| == 0 || q.closed then (q, PopWaits)
    else (q.(items := q.items[1..]), Got(q.items[0]))
  }

  /** `pop(item, timeout)`: the same checks, but a wait whose timer has run out
      (`expired`) returns false with nothing changed. */
  function TimedPop<T>(q: Deque<T>, expired: bool): (r: (Deque<T>, PopStatus<T>))
    requires Valid(q)
    ensures Pop(q).1 != PopWaits ==> r == Pop(q)
    ensures Pop(q).1 == PopWaits ==> r.0 == q && r.1 == if expired then TimedOut else PopWaits
  {
    if q.closed && |q.items| == 0 then (q, NoItem)
    else if |q.items| == 0 || q.closed then (q, if expired then TimedOut else PopWaits)
    else (q.(items := q.items[1..]), Got(q.items[0]))
  }

  /** `front`: the item the next `pop` returns (the source needs a non-empty deque). */
  function Front<T>(q: Deque<T>): (x: T)
    requires Valid(q) && !Empty(q)
    ensures Pop(q).1 == Got(x)
  {
    q.items[0]
  }

  // ------------------------------------------------------------ FIFO order

  /** `push_back` of each item in turn, on an open deque with room for all of them. */
  function PushAllBack<T>(q: Deque<T>, xs: seq<T>): (r: Deque<T>)
    requires Valid(q) && !q.closed && |q.items| + |xs| <= q.capacity
    ensures Valid(r) && !r.closed && r.capacity == q.capacity
    ensures r.items == q.items + xs
    decreases |xs|
  {
    if |xs| == 0 then q
    else
      var q1 := PushBack(q, xs[0]).0;
      assert q.items + xs == (q.items + [xs[0]]) + xs[1..];
      PushAllBack(q1, xs[1..])
  }

  /** The items returned by `n` successive `pop`s on an open deque. */
  function Drain<T>(q: Deque<T>, n: nat): (popped: seq<T>)
    requires Valid(q) && !q.closed && n <= |q.items|
    ensures popped == q.items[..n]
    decreases n
  {
    if n == 0 then []
    else
      var p := Pop(q);
      assert q.items[..n] == [q.items[0]] + q.items[1..][..n - 1];
      [p.1.item] + Drain(p.0, n - 1)
  }

  /** `back`: the item the last of the pops that empty the deque returns. */
  function Back<T>(q: Deque<T>): (x: T)
    requires Valid(q) && !Empty(q)
    ensures Drain(q, |q.items|)[|q.items| - 1] == x
  {
    q.items[|q.items| - 1]
  }

  /** Back-pushed items are popped in the order they were pushed, after
      whatever was already queued. */
  lemma PushBackThenPopIsFifo<T>(q: Deque<T>, xs: seq<T>)
    requires Valid(q) && !q.closed && |q.items| + |xs| <= q.capacity
    ensures Drain(PushAllBack(q, xs), |q.items| + |xs|) == q.items + xs
  {
  }

  /** A front-pushed item is the next one popped, and that pop restores the deque. */
  lemma PushFrontPopsNext<T>(q: Deque<T>, x: T)
    requires Valid(q) && !q.closed && !Full(q)
    ensures Pop(PushFront(q, x).0) == (q, Got(x))
  {
  }

  /** The last item pushed at the back is what `back` reports. */
  lemma BackIsLastPushed<T>(q: Deque<T>, x: T)
    requires Valid(q) && !q.closed && !Full(q)
    ensures Back(PushBack(q, x).0) == x
  {
  }

  /** On an open deque, `full()` holds exactly when a push would wait, and
      `empty()` exactly when a pop would wait. */
  lemma FullEmptyMeanWaiting<T>(q: Deque<T>, x: T)
    requires Valid(q) && !q.closed
    ensures Full(q) <==> PushBack(q, x).1 == PushWaits
    ensures Full(q) <==> PushFront(q, x).1 == PushWaits
    ensures Empty(q) <==> Pop(q).1 == PopWaits
  {
  }

  // --------------------------------------------------------- state machine

  /** One critical section of any public operation. */
  datatype Op<T> =
    | PushBackOp(x: T)
    | PushFrontOp(x: T)
    | PopOp
    | TimedPopOp(expired: bool)
    | CloseOp
    | ClearOp

  function Step<T>(q: Deque<T>, op: Op<T>): (r: Deque<T>)
    requires Valid(q)
    ensures Valid(r) && r.capacity == q.capacity && (q.closed ==> r.closed)
  {
    match op
    case PushBackOp(x) => PushBack(q, x).0
    case PushFrontOp(x) => PushFront(q, x).0
    case PopOp => Pop(q).0
    case TimedPopOp(e) => TimedPop(q, e).0
    case CloseOp => Close(q)
    case ClearOp => Clear(q)
  }

  function Run<T>(q: Deque<T>, ops: seq<Op<T>>): (r: Deque<T>)
    requires Valid(q)
    decreases |ops|
  {
    if |ops| == 0 then q else Run(Step(q, ops[0]), ops[1..])
  }

  /** Over any interleaving of critical sections: the capacity never changes,
      the size never exceeds it, and once closed the deque stays closed and empty
      (so every later push is dropped). */
  lemma {:induction false} RunKeepsInvariant<T>(q: Deque<T>, ops: seq<Op<T>>)
    requires Valid(q)
    ensures Valid(Run(q, ops)) && Run(q, ops).capacity == q.capacity
    ensures |Run(q, ops).items| <= q.capacity
    ensures q.closed ==> Run(q, ops).closed && Empty(Run(q, ops))
    decreases |ops|
  {
    if |ops| > 0 {
      RunKeepsInvariant(Step(q, ops[0]), ops[1..]);
    }
  }

  /** Capacity 2: push 1 and 2; a push of 3 waits; one pop yields 1
      and lets 3 in; the next pops yield 2 then 3. */
  lemma CapacityTwoScenario()
    ensures var q0 := New<int>(2);
      var q1 := PushBack(q0, 1).0;
      var q2 := PushBack(q1, 2).0;
      var p1 := Pop(q2);
      var q3 := PushBack(p1.0, 3).0;
      var p2 := Pop(q3);
      var p3 := Pop(p2.0);
      && PushBack(q2, 3) == (q2, PushWaits)
      && p1.1 == Got(1)
      && PushBack(p1.0, 3).1 == Inserted
      && p2.1 == Got(2) && p3.1 == Got(3)
      && Empty(p3.0)
  {
  }

  /** After `Close`, pushes do not change the size and pops return no item
      without waiting. */
  lemma ClosedDropsAndReturns<T>(q: Deque<T>, x: T)
    requires Valid(q)
    ensures var c := Close(q);
      && PushBack(c, x) == (c, Discarded)
      && PushFront(c, x) == (c, Discarded)
      && Pop(c) == (c, NoItem)
      && TimedPop(c, false) == (c, NoItem)
  {
  }
}

=== FILE: buffer.dfy ===
/**
  The growable circular byte buffer of src/buffer/buffer.cpp.

  The store `storage` (the source's `buffer_`) has capacity `|storage|`; `readPos`
  and `writePos` index into it. One cell is always left unused, so equal cursors
  mean "empty". The abstraction function `Contents` maps a state to its readable
  bytes: `storage[readPos..writePos]`, or the tail `storage[readPos..]` followed by
  the head `storage[..writePos]` when the data wraps.

  Every fatal `assert` of the source is a `requires` here, except the one at
  buffer.cpp:100 and the null-source checks at buffer.cpp:109 and 126 (which
  sequences make moot); the one at line 100 the compaction branch of the growth
  path breaks (see
  `EnsureWriteableAsWritten`); `EnsureWriteable` is the corrected definition the
  rest of the model uses.
*/
module CircularBuffer {
  import opened ModArith

  /** One storage cell (the source's `char`). */
  newtype byte = x: int | 0 <= x < 256

  datatype Option<T> = None | Some(value: T)

  datatype Buffer = Buffer(storage: seq<byte>, readPos: nat, writePos: nat)

  /** Both cursors lie inside a non-empty store. */
  predicate Valid(b: Buffer) {
    0 < |b.storage| && b.readPos < |b.storage| && b.writePos < |b.storage|
  }

  function Cap(b: Buffer): nat {
    |b.storage|
  }

  /** The readable bytes, in order. */
  function Contents(b: Buffer): seq<byte>
    requires Valid(b)
  {
    if b.writePos >= b.readPos then b.storage[b.readPos..b.writePos]
    else b.storage[b.readPos..] + b.storage[..b.writePos]
  }

  function Zeros(n: nat): (z: seq<byte>)
    ensures |z| == n
  {
    seq(n, _ => 0)
  }

  /** `Buffer(initBuffSize)`: a zero-filled store with both cursors at 0. A size of 0
      would make every `% buffer_.size()` undefined, so it is excluded. */
  function New(size: nat): (b: Buffer)
    requires size > 0
    ensures Valid(b) && Cap(b) == size
    ensures Contents(b) == [] && WritableBytes(b) == size - 1
  {
    Buffer(Zeros(size), 0, 0)
  }

  // ---------------------------------------------------------------- queries

  function ReadableBytes(b: Buffer): (n: nat)
    requires Valid(b)
    ensures n == |Contents(b)| && n < Cap(b)
    ensures n == 0 <==> b.readPos == b.writePos
  {
    if b.writePos >= b.readPos then b.writePos - b.readPos
    else Cap(b) - b.readPos + b.writePos
  }

  function WritableBytes(b: Buffer): (n: nat)
    requires Valid(b)
    ensures ReadableBytes(b) + n == Cap(b) - 1
  {
    if b.writePos >= b.readPos then Cap(b) - b.writePos + b.readPos - 1
    else b.readPos - b.writePos - 1
  }

  function PrependableBytes(b: Buffer): (n: nat)
    requires Valid(b)
    ensures n < Cap(b)
    ensures NextPos(b, n, ReadableBytes(b)) == b.writePos
  {
    b.readPos
  }

  /** The prependable count is not part of the capacity budget: adding it to
      readable + writable overshoots `Cap - 1` by exactly `readPos`. */
  lemma PrependableOutsideSum(b: Buffer)
    requires Valid(b)
    ensures ReadableBytes(b) + WritableBytes(b) == Cap(b) - 1
    ensures ReadableBytes(b) + WritableBytes(b) + PrependableBytes(b) == Cap(b) - 1
            <==> b.readPos == 0
  {
  }

  /** `NextPos(pos, len)`: the cell `len` steps after `pos`, modulo the capacity. */
  function NextPos(b: Buffer, pos: nat, len: nat): (p: nat)
    requires Valid(b)
    ensures p < Cap(b)
    ensures pos + len < 2 * Cap(b) ==>
              p == if pos + len < Cap(b) then pos + len else pos + len - Cap(b)
  {
    ModOnePeriod(pos + len, Cap(b));
    (pos + len) % Cap(b)
  }

  /** The i-th readable byte is stored `i` cells after `readPos`, whichever
      segment it lies in. */
  lemma ContentsAt(b: Buffer, i: nat)
    requires Valid(b) && i < ReadableBytes(b)
    ensures Contents(b)[i] == b.storage[NextPos(b, b.readPos, i)]
  {
  }

  /** The `len` cells that follow `from`, wrapping at the end of storage. */
  function Cells(b: Buffer, from: nat, len: nat): (s: seq<byte>)
    requires Valid(b)
    ensures |s| == len
  {
    seq(len, j requires 0 <= j < len => b.storage[NextPos(b, from, j)])
  }

  /** The two descriptions of the readable bytes agree: the tail-then-head join
      is the run of `ReadableBytes` cells starting at `readPos`. */
  lemma ContentsAreCells(b: Buffer)
    requires Valid(b)
    ensures Contents(b) == Cells(b, b.readPos, ReadableBytes(b))
  {
    forall i | 0 <= i < ReadableBytes(b)
      ensures Contents(b)[i] == Cells(b, b.readPos, ReadableBytes(b))[i]
    {
      ContentsAt(b, i);
    }
  }

  /** A sequence that agrees with the storage cell by cell from `readPos` on is
      exactly the readable content. */
  lemma ContentsByIndex(b: Buffer, s: seq<byte>)
    requires Valid(b) && |s| == ReadableBytes(b)
    requires forall i :: 0 <= i < |s| ==> s[i] == b.storage[NextPos(b, b.readPos, i)]
    ensures Contents(b) == s
  {
    forall i | 0 <= i < |s|
      ensures Contents(b)[i] == s[i]
    {
      ContentsAt(b, i);
    }
  }

  // ------------------------------------------------------------- retrieval

  /** Moving `readPos` forward by `len` drops exactly the first `len` readable
      bytes, and lands on `writePos` exactly when everything was consumed. */
  lemma AdvanceRead(b: Buffer, len: nat)
    requires Valid(b) && len <= ReadableBytes(b)
    ensures NextPos(b, b.readPos, len) == b.writePos <==> len == ReadableBytes(b)
    ensures len < ReadableBytes(b) ==>
              Contents(b.(readPos := NextPos(b, b.readPos, len))) == Contents(b)[len..]
  {
    var p := NextPos(b, b.readPos, len);
    if len < ReadableBytes(b) {
      var b' := b.(readPos := p);
      var rest := Contents(b)[len..];
      assert ReadableBytes(b') == ReadableBytes(b) - len;
      forall i | 0 <= i < |rest|
        ensures rest[i] == b'.storage[NextPos(b', b'.readPos, i)]
      {
        ContentsAt(b, len + i);
      }
      ContentsByIndex(b', rest);
    }
  }

  function Retrieve(b: Buffer, len: nat): (r: Buffer)
    requires Valid(b) && len <= ReadableBytes(b)
    ensures Valid(r) && r.storage == b.storage
    ensures Contents(r) == Contents(b)[len..]
    ensures ReadableBytes(r) == 0 ==> r.readPos == 0 && r.writePos == 0
    ensures ReadableBytes(r) > 0 ==>
              r.writePos == b.writePos && r.readPos == NextPos(b, b.readPos, len)
  {
    var p := NextPos(b, b.readPos, len);
    AdvanceRead(b, len);
    if p == b.writePos then b.(readPos := 0, writePos := 0) else b.(readPos := p)
  }

  /** The byte count `RetrieveUntil` computes from the marker offset `end`
      (end == Cap is the one-past-the-end pointer). */
  function UntilLength(b: Buffer, end: nat): nat
    requires Valid(b) && end <= Cap(b)
  {
    if end >= b.readPos then end - b.readPos else Cap(b) - b.readPos + end
  }

  function RetrieveUntil(b: Buffer, end: nat): (r: Buffer)
    requires Valid(b) && end <= Cap(b) && UntilLength(b, end) <= ReadableBytes(b)
    ensures Valid(r) && r.storage == b.storage
    ensures ReadableBytes(b) - ReadableBytes(r) == (end - b.readPos) % Cap(b)
    ensures Contents(r) == Contents(b)[(end - b.readPos) % Cap(b)..]
    ensures ReadableBytes(r) > 0 ==> r.readPos == end % Cap(b)
    ensures ReadableBytes(r) == 0 ==> r.readPos == 0 && r.writePos == 0
  {
    ModOnePeriod(end - b.readPos, Cap(b));
    ModOnePeriod(end, Cap(b));
    Retrieve(b, UntilLength(b, end))
  }

  function RetrieveAll(b: Buffer): (r: Buffer)
    requires Valid(b)
    ensures Valid(r) && r.storage == b.storage && Contents(r) == []
    ensures r == Retrieve(b, ReadableBytes(b))
  {
    b.(readPos := 0, writePos := 0)
  }

  /** Returns the readable bytes (joining the tail and head segments when the
      data wraps) and the drained buffer. */
  function RetrieveAllToStr(b: Buffer): (res: (seq<byte>, Buffer))
    requires Valid(b)
    ensures res.0 == Cells(b, b.readPos, ReadableBytes(b))
    ensures Valid(res.1) && Contents(res.1) == []
    ensures res.1.readPos == 0 && res.1.writePos == 0
  {
    ContentsAreCells(b);
    (Contents(b), RetrieveAll(b))
  }

  // ----------------------------------------------------------------- writing

  /** Moving `writePos` forward by `len <= WritableBytes` extends the readable
      content by the `len` cells that follow the old `writePos`. */
  lemma AdvanceWrite(b: Buffer, len: nat)
    requires Valid(b) && len <= WritableBytes(b)
    ensures var r := b.(writePos := NextPos(b, b.writePos, len));
      && Valid(r)
      && ReadableBytes(r) == ReadableBytes(b) + len
      && Contents(r) == Contents(b) + Cells(b, b.writePos, len)
  {
    var r := b.(writePos := NextPos(b, b.writePos, len));
    var n := ReadableBytes(b);
    assert ReadableBytes(r) == n + len;
    var whole := Cells(r, r.readPos, n + len);
    var prev := Cells(b, b.readPos, n);
    var added := Cells(b, b.writePos, len);
    forall k | 0 <= k < n + len
      ensures whole[k] == (prev + added)[k]
    {
      if k >= n {
        assert NextPos(r, r.readPos, k) == NextPos(b, b.writePos, k - n);
      }
    }
    assert whole == prev + added;
    ContentsAreCells(r);
    ContentsAreCells(b);
  }

  function HasWritten(b: Buffer, len: nat): (r: Buffer)
    requires Valid(b) && len <= WritableBytes(b)
    ensures Valid(r) && r.storage == b.storage && r.readPos == b.readPos
    ensures ReadableBytes(r) == ReadableBytes(b) + len
    ensures Contents(r) == Contents(b) + Cells(b, b.writePos, len)
    ensures len > 0 ==> r.readPos != r.writePos
  {
    AdvanceWrite(b, len);
    b.(writePos := NextPos(b, b.writePos, len))
  }

  /** The copy step of `Append` (the two `std::copy` calls): `data` is stored from
      `writePos` up to the physical end of storage, and the remainder from cell 0.
      Cursors do not move. */
  function CopyIn(b: Buffer, data: seq<byte>): (r: Buffer)
    requires Valid(b) && |data| <= Cap(b)
    ensures Valid(r) && Cap(r) == Cap(b)
    ensures r.readPos == b.readPos && r.writePos == b.writePos
  {
    var room := Cap(b) - b.writePos;
    var first := if |data| < room then |data| else room;
    var head := b.storage[..b.writePos] + data[..first] + b.storage[b.writePos + first..];
    var s := if first < |data| then data[first..] + head[|data| - first..] else head;
    b.(storage := s)
  }

  /** Data byte `j` lands `j` cells after `writePos`, wrapping at the end of storage. */
  lemma CopyInWrites(b: Buffer, data: seq<byte>)
    requires Valid(b) && |data| <= Cap(b)
    ensures Cells(CopyIn(b, data), b.writePos, |data|) == data
  {
    var c := CopyIn(b, data);
    var room := Cap(b) - b.writePos;
    var first := if |data| < room then |data| else room;
    var head := b.storage[..b.writePos] + data[..first] + b.storage[b.writePos + first..];
    forall j | 0 <= j < |data|
      ensures Cells(c, b.writePos, |data|)[j] == data[j]
    {
      assert NextPos(c, b.writePos, j) == NextPos(b, b.writePos, j);
      if j < first {
        assert NextPos(b, b.writePos, j) == b.writePos + j;
        assert head[b.writePos + j] == data[j];
      } else {
        assert NextPos(b, b.writePos, j) == j - first;
      }
    }
  }

  /** With at most `WritableBytes` bytes, the copy touches no readable cell. */
  lemma CopyInKeepsContents(b: Buffer, data: seq<byte>)
    requires Valid(b) && |data| <= WritableBytes(b)
    ensures Contents(CopyIn(b, data)) == Contents(b)
  {
    var r := CopyIn(b, data);
    var room := Cap(b) - b.writePos;
    var first := if |data| < room then |data| else room;
    var head := b.storage[..b.writePos] + data[..first] + b.storage[b.writePos + first..];
    var c := Contents(b);
    forall i | 0 <= i < |c|
      ensures c[i] == r.storage[NextPos(r, r.readPos, i)]
    {
      ContentsAt(b, i);
      var p := NextPos(b, b.readPos, i);
      assert p < b.writePos || p >= b.writePos + first;
      assert first < |data| ==> p >= |data| - first;
      assert head[p] == b.storage[p];
    }
    ContentsByIndex(r, c);
  }

  // ------------------------------------------------------------------ growth

  /** Growth branch of `MakeSpace_`: a zero-filled store of `2 * (Cap + len)`
      cells holding the readable bytes from cell 0. */
  function Grow(b: Buffer, len: nat): (r: Buffer)
    requires Valid(b)
    ensures Valid(r) && Cap(r) == 2 * (Cap(b) + len) && Cap(r) > Cap(b)
    ensures Contents(r) == Contents(b)
    ensures r.readPos == 0 && r.writePos == ReadableBytes(b)
    ensures WritableBytes(r) >= len
  {
    var readable := ReadableBytes(b);
    Buffer(Contents(b) + Zeros(2 * (Cap(b) + len) - readable), 0, readable)
  }

  /** Compaction branch of `MakeSpace_`: the readable bytes are copied to cell 0
      of the same store. In a ring the free cells before `readPos` were already
      counted as writable, so the writable count does not change. */
  function Compact(b: Buffer): (r: Buffer)
    requires Valid(b)
    ensures Valid(r) && Cap(r) == Cap(b)
    ensures Contents(r) == Contents(b)
    ensures r.readPos == 0 && r.writePos == ReadableBytes(b)
    ensures WritableBytes(r) == WritableBytes(b)
  {
    var readable := ReadableBytes(b);
    Buffer(Contents(b) + b.storage[readable..], 0, readable)
  }

  /** True when `MakeSpace_(len)` takes its compaction branch. */
  predicate CompactionChosen(b: Buffer, len: nat)
    requires Valid(b)
  {
    WritableBytes(b) + PrependableBytes(b) >= len + 1
  }

  /** `MakeSpace_` as written: grow when writable + prependable cannot hold
      `len` plus the reserved cell, otherwise compact. */
  function MakeSpace(b: Buffer, len: nat): (r: Buffer)
    requires Valid(b)
    ensures Valid(r) && Contents(r) == Contents(b) && Cap(r) >= Cap(b)
    ensures r.readPos == 0 && r.writePos == ReadableBytes(b)
    ensures !CompactionChosen(b, len) ==> Cap(r) == 2 * (Cap(b) + len) && WritableBytes(r) >= len
    ensures CompactionChosen(b, len) ==> Cap(r) == Cap(b) && WritableBytes(r) == WritableBytes(b)
  {
    if !CompactionChosen(b, len) then Grow(b, len) else Compact(b)
  }

  /** `EnsureWriteable` as written, including its assertion: `None` is the abort
      at buffer.cpp:100. That happens exactly when `MakeSpace_` is entered and
      picks compaction; otherwise the result is the corrected `EnsureWriteable`. */
  function EnsureWriteableAsWritten(b: Buffer, len: nat): (r: Option<Buffer>)
    requires Valid(b)
    ensures r.None? <==> WritableBytes(b) < len && CompactionChosen(b, len)
    ensures r.Some? ==> r.value == EnsureWriteable(b, len)
  {
    var g := if WritableBytes(b) < len then MakeSpace(b, len) else b;
    if WritableBytes(g) >= len then Some(g) else None
  }

  /** Corrected `EnsureWriteable`: when space is short, always grow (compaction
      can never add writable space in a ring). */
  function EnsureWriteable(b: Buffer, len: nat): (r: Buffer)
    requires Valid(b)
    ensures Valid(r) && WritableBytes(r) >= len
    ensures Contents(r) == Contents(b) && Cap(r) >= Cap(b)
    ensures WritableBytes(b) >= len ==> r == b
    ensures WritableBytes(b) < len ==> Cap(r) == 2 * (Cap(b) + len) && r.readPos == 0
  {
    if WritableBytes(b) < len then Grow(b, len) else b
  }

  // ------------------------------------------------------------------ append

  /** The content after copying and advancing is the old content followed by `data`. */
  lemma StoreContents(b: Buffer, data: seq<byte>)
    requires Valid(b) && |data| <= WritableBytes(b)
    ensures Contents(HasWritten(CopyIn(b, data), |data|)) == Contents(b) + data
  {
    CopyInWrites(b, data);
    CopyInKeepsContents(b, data);
  }

  /** Lines 113-122 of `Append`, once room is ensured: copy, then `HasWritten`.
      The readable content gains `data` at its end and nothing else changes. */
  function Store(b: Buffer, data: seq<byte>): (r: Buffer)
    requires Valid(b) && |data| <= WritableBytes(b)
    ensures Valid(r) && Contents(r) == Contents(b) + data
    ensures Cap(r) == Cap(b) && r.readPos == b.readPos
  {
    StoreContents(b, data);
    HasWritten(CopyIn(b, data), |data|)
  }

  /** `Append(str, len)` (all byte-source overloads): make room, then store.
      The readable content becomes the old content followed by `data`. */
  function Append(b: Buffer, data: seq<byte>): (r: Buffer)
    requires Valid(b)
    ensures Valid(r) && Contents(r) == Contents(b) + data
    ensures Cap(r) >= Cap(b)
    ensures |data| <= WritableBytes(b) ==> Cap(r) == Cap(b) && r.readPos == b.readPos
    ensures |data| > WritableBytes(b) ==> Cap(r) == 2 * (Cap(b) + |data|) && r.readPos == 0
  {
    Store(EnsureWriteable(b, |data|), data)
  }

  /** Corrected `Append(const Buffer&)`: appends the source buffer's readable
      content, both segments when it wraps. */
  function AppendBuffer(dst: Buffer, src: Buffer): (r: Buffer)
    requires Valid(dst) && Valid(src)
    ensures Valid(r) && Contents(r) == Contents(dst) + Contents(src)
    ensures ReadableBytes(r) == ReadableBytes(dst) + ReadableBytes(src)
  {
    Append(dst, Contents(src))
  }

  /** Concatenation of a list of chunks. */
  function Concat(chunks: seq<seq<byte>>): seq<byte> {
    if chunks == [] then [] else chunks[0] + Concat(chunks[1..])
  }

  /** Appending the first chunk, then the rest, is appending them all. */
  lemma ConcatStep(a: seq<byte>, chunks: seq<seq<byte>>)
    requires chunks != []
    ensures (a + chunks[0]) + Concat(chunks[1..]) == a + Concat(chunks)
  {
  }

  /** A run of appends, one per chunk, through any number of growths. */
  function AppendAll(b: Buffer, chunks: seq<seq<byte>>): (r: Buffer)
    requires Valid(b)
    ensures Valid(r) && Contents(r) == Contents(b) + Concat(chunks)
    ensures Cap(r) >= Cap(b)
    decreases |chunks|
  {
    if chunks == [] then b
    else
      var b1 := Append(b, chunks[0]);
      var r := AppendAll(b1, chunks[1..]);
      ConcatStep(Contents(b), chunks);
      r
  }

  /** Appends that start from `readPos` 0 never compact: each one either fits,
      keeping `readPos`, or grows, resetting it to 0. */
  lemma {:induction false} AppendAllFromStart(b: Buffer, chunks: seq<seq<byte>>)
    requires Valid(b) && b.readPos == 0
    ensures AppendAll(b, chunks).readPos == 0
    decreases |chunks|
  {
    if chunks != [] {
      AppendAllFromStart(Append(b, chunks[0]), chunks[1..]);
    }
  }

  /** Growth round trip: appending chunks to a fresh buffer and draining it
      returns exactly the appended bytes, in order. */
  lemma DrainAfterAppends(size: nat, chunks: seq<seq<byte>>)
    requires size > 0
    ensures var drained := RetrieveAllToStr(AppendAll(New(size), chunks));
      drained.0 == Concat(chunks) && ReadableBytes(drained.1) == 0
  {
    ContentsAreCells(AppendAll(New(size), chunks));
  }
}

=== FILE: buffer_findings.dfy ===
/**
  Two defects of src/buffer/buffer.cpp, each as written beside the corrected
  definition the rest of the model uses.

  1. Compaction does not create space. `MakeSpace_` compacts whenever
     writable + prependable >= len + 1, but in a ring the cells before `readPos`
     are already counted as writable, so compaction leaves `WritableBytes`
     unchanged and the assertion at buffer.cpp:100 fails; `ReadFd` reaches the
     same path through its overflow `Append`. With assertions compiled out the
     write cursor then laps the read cursor and readable bytes are lost.
  2. `Append(const Buffer&)` copies `ReadableBytes()` contiguous bytes from
     `Peek()`, which runs past the end of the source's storage when its data wraps.
*/
module BufferFindings {
  import opened CircularBuffer
  import BufferIo

  /** `Append(str, len)` as written, assertions enabled: `None` is the abort at
      buffer.cpp:100. */
  function AppendAsWritten(b: Buffer, data: seq<byte>): (r: Option<Buffer>)
    requires Valid(b)
    ensures r.None? <==> WritableBytes(b) < |data| && CompactionChosen(b, |data|)
    ensures r.Some? ==> r.value == Append(b, data)
  {
    match EnsureWriteableAsWritten(b, |data|)
    case None => None
    case Some(g) => Some(Store(g, data))
  }

  /** Capacity 32, readPos 10, writePos 20, and a 25-byte append: 21 writable
      cells, 21 + 10 >= 26 selects compaction, and afterwards there are still 21. */
  lemma CompactionCounterexample(data: seq<byte>)
    requires |data| == 25
    ensures var b := Buffer(Zeros(32), 10, 20);
      && Valid(b)
      && WritableBytes(b) == 21
      && CompactionChosen(b, 25)
      && WritableBytes(MakeSpace(b, 25)) == 21
      && EnsureWriteableAsWritten(b, 25).None?
      && AppendAsWritten(b, data).None?
  {
  }

  /** Compaction leaves too little room in every case it is chosen, and growth
      always leaves enough. */
  lemma MakeSpaceMeetsAssertIff(b: Buffer, len: nat)
    requires Valid(b) && WritableBytes(b) < len
    ensures WritableBytes(MakeSpace(b, len)) >= len <==> !CompactionChosen(b, len)
  {
  }

  /** On a buffer whose `readPos` is 0 (a fresh one, or one just drained), the
      as-written `Append` never aborts: compaction is never chosen there. */
  lemma FreshAppendNeverAborts(b: Buffer, data: seq<byte>)
    requires Valid(b) && b.readPos == 0
    ensures AppendAsWritten(b, data).Some?
    ensures AppendAsWritten(b, data).value == Append(b, data)
  {
  }

  /** With assertions compiled out, `Append` after a compaction advances
      `writePos` by more than the writable count; the readable count then falls
      short of old + appended, so bytes are lost. */
  lemma UncheckedAppendLosesBytes(b: Buffer, len: nat)
    requires Valid(b) && WritableBytes(b) < len && CompactionChosen(b, len)
    ensures var g := MakeSpace(b, len);
      ReadableBytes(g.(writePos := NextPos(g, g.writePos, len))) < ReadableBytes(b) + len
  {
  }

  /** `ReadFd` reaches the compaction path: capacity 32, readPos 20, writePos 5,
      and `readv` delivers 20 bytes. The first iovec takes 14, leaving no
      writable cell, and the overflow `Append` of the other 6 selects compaction. */
  lemma ReadFdReachesCompaction(data: seq<byte>)
    requires |data| == 20
    ensures var b := Buffer(Zeros(32), 20, 5);
      && Valid(b)
      && BufferIo.ContiguousWritable(b) == 14
      && var filled := Store(b, data[..14]);
         && WritableBytes(filled) == 0
         && AppendAsWritten(filled, data[14..]).None?
  {
    var b := Buffer(Zeros(32), 20, 5);
    var filled := Store(b, data[..14]);
    assert ReadableBytes(filled) == ReadableBytes(b) + 14;
  }

  /** `Append(const Buffer&)` as written: `ReadableBytes()` bytes straight from
      `Peek()`. It is only defined while that span stays inside the source's
      storage, and there it agrees with the corrected `AppendBuffer`. */
  function AppendBufferAsWritten(dst: Buffer, src: Buffer): (r: Buffer)
    requires Valid(dst) && Valid(src)
    requires src.readPos + ReadableBytes(src) <= Cap(src)
    ensures r == AppendBuffer(dst, src)
  {
    PeekSpanIsContents(src);
    Append(dst, src.storage[src.readPos..src.readPos + ReadableBytes(src)])
  }

  /** When it stays inside storage, the span from `Peek()` is the readable content. */
  lemma PeekSpanIsContents(src: Buffer)
    requires Valid(src) && src.readPos + ReadableBytes(src) <= Cap(src)
    ensures src.storage[src.readPos..src.readPos + ReadableBytes(src)] == Contents(src)
  {
  }

  /** The span read by `Append(const Buffer&)` overruns the source's storage
      exactly when the source's data wraps with a non-empty head segment. */
  lemma PeekSpanOverrunIff(src: Buffer)
    requires Valid(src)
    ensures src.readPos + ReadableBytes(src) > Cap(src)
            <==> src.writePos < src.readPos && src.writePos > 0
  {
  }

  /** Capacity 8, readPos 6, writePos 2: 4 readable bytes, but `Peek()` + 4 is
      cell 10 of an 8-cell store. */
  lemma PeekSpanCounterexample()
    ensures var src := Buffer(Zeros(8), 6, 2);
      Valid(src) && ReadableBytes(src) == 4 && src.readPos + ReadableBytes(src) == 10
  {
  }
}

=== FILE: buffer_io.dfy ===
/**
  The cursor bookkeeping of `Buffer::ReadFd` and `Buffer::WriteFd`
  (src/buffer/buffer.cpp:134-216). The `readv` and `write` system calls are not
  modelled: what they reported is an input (the bytes delivered or the count
  written, or a failure with its `errno`), and the model states what the buffer,
  the return value and the `*saveErrno` out-parameter become.
*/
module BufferIo {
  import opened CircularBuffer

  /** Size of `ReadFd`'s on-stack overflow area (`char extrabuff[65535]`). */
  const ExtraBufSize: nat := 65535

  /** What `readv` reported: the bytes it delivered (its non-negative return value
      is their count), or failure with `errno`. */
  datatype ReadResult = Received(bytes: seq<byte>) | ReadFailed(errno: int)

  /** What one `write` call reported: the count accepted, or failure with `errno`. */
  datatype WriteResult = Wrote(count: nat) | WriteFailed(errno: int)

  /** The buffer after the call, the call's return value, and `*saveErrno`
      (which the source writes only on failure, so otherwise it is passed through). */
  datatype IoResult = IoResult(buf: Buffer, ret: int, savedErrno: int)

  /** `WriteFd`'s result plus what the descriptor received, and how many `write`
      calls were issued. */
  datatype WriteOutcome = WriteOutcome(io: IoResult, sent: seq<byte>, calls: nat)

  /** The bytes a `write(fd, Peek(), n)` hands over are the first `n` readable
      bytes, provided the span stays inside storage. */
  lemma PeekPrefix(b: Buffer, n: nat)
    requires Valid(b) && n <= ReadableBytes(b) && b.readPos + n <= Cap(b)
    ensures b.storage[b.readPos..b.readPos + n] == Contents(b)[..n]
  {
  }

  /** Splitting the delivered bytes at `k` and appending both parts is appending them all. */
  lemma SplitJoin(a: seq<byte>, data: seq<byte>, k: nat)
    requires k <= |data|
    ensures (a + data[..k]) + data[k..] == a + data
  {
    assert data[..k] + data[k..] == data;
  }

  /** The bytes sent, then what is left, is what there was. */
  lemma PrefixSplit(s: seq<byte>, n: nat)
    requires n <= |s|
    ensures s == s[..n] + s[n..]
  {
  }

  /** What the two writes sent, then what is left, regrouped. */
  lemma SentJoin(sent1: seq<byte>, sent2: seq<byte>, rest: seq<byte>)
    ensures sent1 + (sent2 + rest) == (sent1 + sent2) + rest
  {
  }

  // -------------------------------------------------------------------- ReadFd

  /** Length of the first iovec: the writable run that starts at `writePos` and
      does not cross the physical end of storage. */
  function ContiguousWritable(b: Buffer): (n: nat)
    requires Valid(b)
    ensures n <= WritableBytes(b) && b.writePos + n <= Cap(b)
    ensures n == WritableBytes(b) || b.writePos + n == Cap(b)
  {
    var writable := WritableBytes(b);
    if b.writePos + writable > Cap(b) then Cap(b) - b.writePos else writable
  }

  /** `ReadFd`: the first `ContiguousWritable` delivered bytes land in storage from
      `writePos` (the same cells `Store` writes), the rest in the overflow area,
      which is then appended with `Append`, growing the buffer if needed. */
  function ReadFd(b: Buffer, rd: ReadResult, savedErrno: int): (r: IoResult)
    requires Valid(b)
    requires rd.Received? ==> |rd.bytes| <= ContiguousWritable(b) + ExtraBufSize
    ensures Valid(r.buf)
    ensures rd.ReadFailed? ==> r.buf == b && r.ret < 0 && r.savedErrno == rd.errno
    ensures rd.Received? ==>
              && r.ret == |rd.bytes|
              && r.savedErrno == savedErrno
              && Contents(r.buf) == Contents(b) + rd.bytes
    ensures rd.Received? && |rd.bytes| <= ContiguousWritable(b) ==>
              Cap(r.buf) == Cap(b) && r.buf.readPos == b.readPos
  {
    match rd
    case ReadFailed(e) => IoResult(b, -1, e)
    case Received(data) =>
      var contiguous := ContiguousWritable(b);
      if |data| <= contiguous then
        IoResult(Store(b, data), |data|, savedErrno)
      else
        var filled := Store(b, data[..contiguous]);
        var grown := Append(filled, data[contiguous..]);
        SplitJoin(Contents(b), data, contiguous);
        IoResult(grown, |data|, savedErrno)
  }

  // ------------------------------------------------------------------- WriteFd

  /** Length requested by the first `write`: all readable bytes when they are
      contiguous, otherwise the tail segment `[readPos, Cap)`. */
  function FirstSegment(b: Buffer): (n: nat)
    requires Valid(b)
    ensures b.readPos + n <= Cap(b)
    ensures ReadableBytes(b) > 0 ==> n <= ReadableBytes(b)
  {
    if b.writePos > b.readPos then ReadableBytes(b) else Cap(b) - b.readPos
  }

  /** The condition for `WriteFd`'s second `write`: the data wraps with a
      non-empty head segment and the first `write` sent the whole tail. */
  predicate WritesHead(b: Buffer, first: WriteResult)
    requires Valid(b)
  {
    b.writePos < b.readPos && b.writePos > 0 && first == Wrote(Cap(b) - b.readPos)
  }

  /** The contiguous branch of `WriteFd` (`writePos > readPos`): a single `write`. */
  function WriteContiguous(b: Buffer, first: WriteResult, savedErrno: int): (r: WriteOutcome)
    requires Valid(b) && b.writePos > b.readPos
    requires first.Wrote? ==> first.count <= ReadableBytes(b)
    ensures Valid(r.io.buf) && Cap(r.io.buf) == Cap(b) && r.calls == 1
    ensures Contents(b) == r.sent + Contents(r.io.buf)
    ensures first.WriteFailed? ==>
              r.io == IoResult(b, -1, first.errno) && r.sent == []
    ensures first.Wrote? ==> r.io.ret == |r.sent| == first.count && r.io.savedErrno == savedErrno
    ensures r.io.ret < 0 <==> first.WriteFailed?
    ensures first.Wrote? ==> r.io.buf == Retrieve(b, first.count)
  {
    match first
    case WriteFailed(e) => WriteOutcome(IoResult(b, -1, e), [], 1)
    case Wrote(n) =>
      var sent := b.storage[b.readPos..b.readPos + n];
      PeekPrefix(b, n);
      var b1 := Retrieve(b, n);
      PrefixSplit(Contents(b), n);
      WriteOutcome(IoResult(b1, n, savedErrno), sent, 1)
  }

  /** The second `write` of the wrapped branch: after the whole tail went out,
      `readPos` is 0 and the head segment `[0, writePos)` is all that is left. */
  function WriteHead(b1: Buffer, n1: nat, second: WriteResult, savedErrno: int): (r: WriteOutcome)
    requires Valid(b1) && b1.readPos == 0 && b1.writePos > 0
    requires second.Wrote? ==> second.count <= b1.writePos
    ensures Valid(r.io.buf) && Cap(r.io.buf) == Cap(b1) && r.calls == 2
    ensures Contents(b1) == r.sent + Contents(r.io.buf)
    ensures second.WriteFailed? ==>
              r.io == IoResult(b1, n1, second.errno) && r.sent == []
    ensures second.Wrote? ==>
              r.io.ret == n1 + |r.sent| && |r.sent| == second.count && r.io.savedErrno == savedErrno
    ensures second.Wrote? ==> r.io.buf == Retrieve(b1, second.count)
  {
    match second
    case WriteFailed(e) => WriteOutcome(IoResult(b1, n1, e), [], 2)
    case Wrote(n2) =>
      var sent2 := b1.storage[b1.readPos..b1.readPos + n2];
      PeekPrefix(b1, n2);
      var b2 := Retrieve(b1, n2);
      PrefixSplit(Contents(b1), n2);
      WriteOutcome(IoResult(b2, n1 + n2, savedErrno), sent2, 2)
  }

  /** The first `write` of the wrapped branch accepted `n1` bytes of the tail
      segment `[readPos, Cap)`; they are retrieved. When that was the whole tail
      and the head segment is non-empty, the head is what is left. */
  function WriteTail(b: Buffer, n1: nat, savedErrno: int): (r: WriteOutcome)
    requires Valid(b) && b.writePos < b.readPos && n1 <= Cap(b) - b.readPos
    ensures Valid(r.io.buf) && Cap(r.io.buf) == Cap(b) && r.calls == 1
    ensures Contents(b) == r.sent + Contents(r.io.buf)
    ensures r.io.ret == |r.sent| == n1 && r.io.savedErrno == savedErrno
    ensures n1 == Cap(b) - b.readPos && b.writePos > 0 ==>
              r.io.buf.readPos == 0 && r.io.buf.writePos == b.writePos
    ensures r.io.buf == Retrieve(b, n1)
  {
    var sent1 := b.storage[b.readPos..b.readPos + n1];
    PeekPrefix(b, n1);
    var b1 := Retrieve(b, n1);
    PrefixSplit(Contents(b), n1);
    WriteOutcome(IoResult(b1, n1, savedErrno), sent1, 1)
  }

  /** The wrapped branch after a first `write` that accepted `n1` bytes of the
      tail segment: the head segment follows only if the tail went out whole and
      `writePos > 0`. */
  function WriteAfterTail(b: Buffer, n1: nat, second: WriteResult, savedErrno: int): (r: WriteOutcome)
    requires Valid(b) && b.writePos < b.readPos && n1 <= Cap(b) - b.readPos
    requires second.Wrote? ==> second.count <= b.writePos
    ensures Valid(r.io.buf) && Cap(r.io.buf) == Cap(b)
    ensures Contents(b) == r.sent + Contents(r.io.buf)
    ensures r.calls == 2 <==> WritesHead(b, Wrote(n1))
    ensures r.io.ret == |r.sent| && r.io.ret >= 0
    ensures r.calls == 2 && second.WriteFailed? ==>
              r.io.ret == Cap(b) - b.readPos && r.io.savedErrno == second.errno
    ensures r.calls < 2 || second.Wrote? ==> r.io.savedErrno == savedErrno
    ensures r.calls == 1 ==> |r.sent| == n1
    ensures r.calls == 2 && second.Wrote? ==> |r.sent| == n1 + second.count
    ensures ReadableBytes(r.io.buf) == 0 ==> r.io.buf.readPos == 0 && r.io.buf.writePos == 0
    ensures ReadableBytes(r.io.buf) > 0 ==> r.io.buf.writePos == b.writePos
  {
    var t := WriteTail(b, n1, savedErrno);
    if n1 == Cap(b) - b.readPos && b.writePos > 0 then
      var h := WriteHead(t.io.buf, n1, second, savedErrno);
      SentJoin(t.sent, h.sent, Contents(h.io.buf));
      WriteOutcome(h.io, t.sent + h.sent, 2)
    else
      t
  }

  /** The wrapped branch of `WriteFd`: the tail segment `[readPos, Cap)`, then
      the head segment only if the tail went out whole and `writePos > 0`. */
  function WriteWrapped(b: Buffer, first: WriteResult, second: WriteResult, savedErrno: int): (r: WriteOutcome)
    requires Valid(b) && b.writePos < b.readPos
    requires first.Wrote? ==> first.count <= Cap(b) - b.readPos
    requires second.Wrote? ==> second.count <= b.writePos
    ensures Valid(r.io.buf) && Cap(r.io.buf) == Cap(b)
    ensures Contents(b) == r.sent + Contents(r.io.buf)
    ensures first.WriteFailed? ==>
              r.io == IoResult(b, -1, first.errno) && r.sent == [] && r.calls == 1
    ensures r.calls == 2 <==> WritesHead(b, first)
    ensures first.Wrote? ==> r.io.ret == |r.sent|
    ensures r.io.ret < 0 <==> first.WriteFailed?
    ensures r.calls == 2 && second.WriteFailed? ==>
              r.io.ret == Cap(b) - b.readPos && r.io.savedErrno == second.errno
    ensures first.Wrote? && (r.calls < 2 || second.Wrote?) ==> r.io.savedErrno == savedErrno
    ensures first.Wrote? && r.calls == 1 ==> |r.sent| == first.count
    ensures r.calls == 2 && second.Wrote? ==> |r.sent| == first.count + second.count
    ensures first.Wrote? ==> ReadableBytes(r.io.buf) == 0 ==> r.io.buf.readPos == 0 && r.io.buf.writePos == 0
    ensures first.Wrote? ==> ReadableBytes(r.io.buf) > 0 ==> r.io.buf.writePos == b.writePos
  {
    match first
    case WriteFailed(e) => WriteOutcome(IoResult(b, -1, e), [], 1)
    case Wrote(n1) => WriteAfterTail(b, n1, second, savedErrno)
  }

  /** `WriteFd`: nothing to do on an empty buffer; otherwise one or two `write`
      calls, each followed by `Retrieve` of exactly the count it reported. */
  function WriteFd(b: Buffer, first: WriteResult, second: WriteResult, savedErrno: int): (r: WriteOutcome)
    requires Valid(b)
    requires first.Wrote? ==> first.count <= FirstSegment(b)
    requires second.Wrote? ==> second.count <= b.writePos
    ensures Valid(r.io.buf) && Cap(r.io.buf) == Cap(b)
    ensures ReadableBytes(b) == 0 ==> r == WriteOutcome(IoResult(b, 0, savedErrno), [], 0)
    ensures Contents(b) == r.sent + Contents(r.io.buf)
    ensures r.io.ret < 0 <==> ReadableBytes(b) > 0 && first.WriteFailed?
    ensures r.io.ret < 0 ==> r.io.buf == b && r.sent == [] && r.io.savedErrno == first.errno
    ensures r.io.ret >= 0 ==> r.io.ret == |r.sent|
    ensures r.calls == 2 <==> WritesHead(b, first)
    ensures r.calls == 2 && second.WriteFailed? ==>
              r.io.ret == Cap(b) - b.readPos && r.io.savedErrno == second.errno
    ensures first.Wrote? && (r.calls < 2 || second.Wrote?) ==> r.io.savedErrno == savedErrno
    ensures first.Wrote? && r.calls == 1 ==> |r.sent| == first.count
    ensures r.calls == 2 && second.Wrote? ==> |r.sent| == first.count + second.count
    ensures ReadableBytes(b) > 0 && r.io.ret >= 0 ==>
              ReadableBytes(r.io.buf) == 0 ==> r.io.buf.readPos == 0 && r.io.buf.writePos == 0
    ensures ReadableBytes(b) > 0 && r.io.ret >= 0 ==>
              ReadableBytes(r.io.buf) > 0 ==> r.io.buf.writePos == b.writePos
  {
    if ReadableBytes(b) == 0 then
      WriteOutcome(IoResult(b, 0, savedErrno), [], 0)
    else if b.writePos > b.readPos then
      WriteContiguous(b, first, savedErrno)
    else
      WriteWrapped(b, first, second, savedErrno)
  }
}

=== FILE: buffer_scenario.dfy ===
/** A run of the circular buffer: capacity 32, ten digits in, four
    out, thirty more in (forcing growth), then a full drain. */
module BufferScenario {
  import opened CircularBuffer
  import BufferFindings

  /** The ASCII digits "0123456789". */
  function Digits(): seq<byte> {
    [48, 49, 50, 51, 52, 53, 54, 55, 56, 57]
  }

  lemma Capacity32Scenario(more: seq<byte>)
    requires |more| == 30
    ensures var b0 := New(32);
      var b1 := Append(b0, Digits());
      var b2 := Retrieve(b1, 4);
      var b3 := Append(b2, more);
      && WritableBytes(b0) == 31
      && ReadableBytes(b1) == 10 && WritableBytes(b1) == 21
      && Contents(b2) == Digits()[4..]
      && WritableBytes(b2) == 25 && !CompactionChosen(b2, 30)
      && BufferFindings.AppendAsWritten(b2, more) == Some(b3)
      && Cap(b3) == 124
      && RetrieveAllToStr(b3).0 == Digits()[4..] + more
  {
    var b0 := New(32);
    var b1 := Append(b0, Digits());
    var b2 := Retrieve(b1, 4);
    var b3 := Append(b2, more);
    assert b2.readPos == 4;
    ContentsAreCells(b3);
  }
}

=== FILE: modarith.dfy ===
/** Facts about Dafny's (Euclidean) `%` that the ring-index proofs rely on. */
module ModArith {

  /** Within one period either side of `[0, m)`, `x % m` is a single
      add or subtract of `m`; every cursor sum in the buffer stays in this range. */
  lemma ModOnePeriod(x: int, m: int)
    requires 0 < m
    ensures -m <= x < 2 * m ==>
              x % m == if x < 0 then x + m else if x < m then x else x - m
  {
  }
}
